=== FILE: README.md ===
# Writers model and backend privilege gate, in Dafny

This project models two parts of the scheduler's PHP backend.

**The writer record manager** (`Writers_Model`) keeps three tables:
- `ea_users`, one row per user with its role;
- `ea_user_settings`, one row per user holding username, password digest, salt and other columns;
- `ea_writers_providers`, the writer-to-provider association.

Here the store is an immutable `Db` value:
- users and settings rows are maps keyed by user id;
- roles and association rows are sequences, because the code reads the first matching row and keeps duplicates;
- `nextId` is the auto-increment counter.

Every operation is a function from the store before to a `Result` (or an `Effect`: a `Result` plus the store after). An operation that throws part-way keeps the writes made before the throw, since the code runs without a transaction. The opaque primitives travel in an `Env` value:
- `hash_password` and `FILTER_VALIDATE_EMAIL`;
- the constants `DB_SLUG_WRITER`, `MIN_PASSWORD_LENGTH`, `PRIV_VIEW` and the page names;
- how the database compares a role slug with the integer 0.

`generate_salt()` becomes a parameter of insert and add. A payload (`Payload`) keeps its `providers` list and `settings` array apart from its ea_users columns. This mirrors the `unset` calls in insert and update, so neither key can become a user column.

**The privilege gate** of the backend controller:
- `hasPrivileges` turns a session (user id and role slug), the `ea_roles` table, a page and a redirect flag into a boolean plus the redirect it sends;
- the gates of `settings()`, `update()` and `index()` combine it, and `index()` also chooses `writer_providers`.

Modules:
- `Wrappers` (`wrappers.dfy`): `Option` and `Result`.
- `Store` (`store.dfy`): the tables, `Env`, the well-formedness invariant `Wf`, role lookup.
- `WritersModel` (`writers_model.dfy`): every operation of `Writers_Model`.
- `Backend` (`backend.dfy`): the gate.
- `WritersProofs` (`writers_proofs.dfy`): properties that relate several operations. These include uniqueness invariants, round trips and idempotence.

The model follows the code in these places, where a reader might expect otherwise:
- `save_providers` keeps duplicate provider ids; there is one row per list element.
- Required fields are checked with `isset` only.
- `delete` removes the `ea_users` row and nothing else.
- `get_batch` leaves the salt in each record.
- `insert` always hashes a password. When none is given, `hash_password` receives PHP NULL; the model passes the empty string in its place.
- A logged-in session without a role slug is not refused outright. `userdata()` returns FALSE, the query builder escapes it as `0`, and the first role row whose slug the database equates with 0 decides. That comparison is the opaque `Env.equalsZero`.
- Privilege levels are compared as integers, and a missing level (NULL) counts as below every non-zero `PRIV_VIEW`, as PHP's loose `<` does.
- The branch of `add` that re-attaches a payload to an existing writer by email can never run. `validate` has already rejected that payload, so the branch is proved dead instead of being modelled as live.

## Model

| member | source | states |
|---|---|---|
| Store.FirstRole | application/controllers/backend.php:230-231 | the position of the first role row whose slug the query matches, or the table length when none does; every earlier row fails to match |
| Store.WriterRoleId | application/models/writers_model.php:417-419 | the id of the first role row whose slug is the writer slug when one exists, 0 when none does |
| WritersModel.ProvidersOfMembers | application/models/writers_model.php:282-287 | the provider list `ProvidersOf` reads for a writer holds a provider id exactly when the table has a row linking the writer to it |
| WritersModel.DeleteLinksOf | application/models/writers_model.php:431-432 | the rows kept are exactly the rows of other writers; the deleted writer has no providers left, every other writer keeps its list |
| WritersModel.InsertLinks | application/models/writers_model.php:434-441 | one new row per list element, appended after the old rows; the writer's provider list grows by exactly the list, others are unchanged |
| WritersModel.SaveProviders | application/models/writers_model.php:426-442 | throws and writes nothing iff the providers value is not a list; otherwise the writer's provider list is exactly the given list, duplicates included, and every other writer's list and every other table is unchanged |
| WritersModel.SetSetting | application/models/writers_model.php:493-496 | the named column of the row holds the value; other columns, other rows and the set of rows are unchanged |
| WritersModel.WriteSettings | application/models/writers_model.php:466-468 | writing each key in turn gives the old row overwritten by the given keys; other rows unchanged |
| WritersModel.CreateAndWriteSettings | application/models/writers_model.php:459-468 | afterwards exactly one row exists for the id, created empty if missing, holding the old columns overwritten by the given keys |
| WritersModel.SaveSettings | application/models/writers_model.php:450-469 | throws on a non-numeric id or an empty settings array without writing; succeeds otherwise, with the row created if absent, the given keys written and other columns and rows untouched |
| WritersModel.GetSetting | application/models/writers_model.php:478-482 | the named column of the user's row; NULL when the row or the column is missing; `id_users` reads back the id |
| WritersModel.ValidateUsername | application/models/writers_model.php:505-509 | true iff every settings row holding the username belongs to the given user id; with no id, true iff no row holds it |
| WritersModel.Exists | application/models/writers_model.php:62-77 | throws iff no email is given; otherwise true iff some writer-role user has that email |
| WritersModel.FindRecordId | application/models/writers_model.php:149-167 | throws iff no email is given or no writer-role user has it; otherwise the id of a writer-role user with that email |
| WritersModel.Validate | application/models/writers_model.php:175-240 | passes iff every rule holds (known id, providers a list, required fields, valid email, username free, password long enough, email not another writer's); each error names the rule that failed |
| WritersModel.InsertSettings | application/models/writers_model.php:101-102 | the settings insert writes: the given keys, the fresh salt, and the password replaced by its digest under that salt |
| WritersModel.SaveRelations | application/models/writers_model.php:104-105 | providers then settings: succeeds iff the providers are a list and the settings non-empty; a providers failure writes nothing; any failure leaves settings unchanged; no other user's rows change |
| WritersModel.Insert | application/models/writers_model.php:86-108 | a new user row under the next id with the writer role id, whatever the payload says, and without `providers` or `settings` columns; the row stays even when a later save throws; on success returns that id, stores exactly the given providers, the fresh salt and the digest of the given password |
| WritersModel.UpdatedUser | application/models/writers_model.php:130-133 | the payload's columns overwrite, other columns stay, the role changes only when given |
| WritersModel.UpdateSettings | application/models/writers_model.php:125-128 | same keys as given; a given password is replaced by its digest under the stored salt; every other value as given |
| WritersModel.Update | application/models/writers_model.php:117-139 | rewrites the user row, which never gains a `providers` or `settings` column, keeps every other user; succeeds iff providers are a list and settings non-empty, returning the given id; the stored password is the digest under the unchanged old salt |
| WritersModel.ResolveId | application/models/writers_model.php:41-43 | no email: the exists call throws; an id given with an email stands; no id: an id is found iff some writer-role user has the payload's email, and it is such a writer's id |
| WritersModel.ValidatedPayloadKeepsItsId | application/models/writers_model.php:41-43 | after validation passes, the email lookup in add never changes the payload's id |
| WritersModel.Add | application/models/writers_model.php:38-52 | any payload validation rejects leaves the store exactly as it was, whatever its id and password; otherwise add is update when an id is given and insert when not; on success the returned id is a user with exactly the given providers |
| WritersModel.Delete | application/models/writers_model.php:249-260 | throws on a non-numeric id; false and no change for an unknown id; otherwise true with exactly that user row removed and every other table unchanged |
| WritersModel.Record | application/models/writers_model.php:280-291 | the user's columns, its provider ids in table order (`ProvidersOf`), its settings row with the salt removed when asked |
| WritersModel.GetRow | application/models/writers_model.php:270-294 | throws on a non-numeric or unknown id; otherwise the user's record, without the salt |
| WritersModel.GetBatch | application/models/writers_model.php:340-366 | exactly the users whose role id is the writer role id, each with its id, role, columns, provider list and full settings row |
| WritersModel.GetValue | application/models/writers_model.php:307-331 | throws on a non-numeric or unknown id or a missing column; otherwise the named column, with `id` and `id_roles` read from the row's key and role |
| Backend.PageLevel | application/controllers/backend.php:229-232 | the page level of the first role row the query matches (the session's slug, or for an unset slug a row the database equates with 0); NULL when that row lacks the page or no row matches |
| Backend.HasPrivileges | application/controllers/backend.php:219-240 | not logged in: false, with the login redirect iff the flag is set; logged in: granted iff the page level is not below PRIV_VIEW, with the no-privileges redirect iff refused and the flag is set; a session no role row matches is refused |
| Backend.SettingsPage | application/controllers/backend.php:175-178 | served iff logged in with system-settings or user-settings view privilege; a refusal carries the redirect of the second check only |
| Backend.UpdateAction | application/controllers/backend.php:266-269 | the migration runs iff the system-settings check passes; otherwise the privileges exception, with its redirect |
| Backend.Index | application/controllers/backend.php:28-57 | denied iff the appointments check fails; for a writer session the writer's provider list, failing iff its user row is gone; an empty list for every other role |
| Backend.UnsetSlugUsesFirstZeroRole | application/controllers/backend.php:229-232 | a logged-in session with no role slug is granted or refused on the levels of the first role row whose slug the database equates with 0, wherever that row sits in the table |
| Backend.GrantIgnoresRedirectFlag | application/controllers/backend.php:219-240 | the boolean hasPrivileges returns is the same for both values of the redirect flag |
| Backend.RaisingLevelKeepsGrant | application/controllers/backend.php:228-232 | raising a role's level for a page never revokes that page for a session of that role |
| WritersProofs.ExistsAgreesWithFindRecordId | application/models/writers_model.php:62-77 | exists answers true exactly when find_record_id succeeds, false exactly when it throws for want of a record, and both refuse a missing email alike |
| WritersProofs.AddKeepsWf | application/models/writers_model.php:38-52 | every store add leaves behind, even after a throw part-way, keeps every id positive and below the counter |
| WritersProofs.InsertKeepsWf | application/models/writers_model.php:86-108 | the same for insert alone |
| WritersProofs.UpdateKeepsWf | application/models/writers_model.php:117-139 | the same for update of an existing user |
| WritersProofs.InsertUsernames | application/models/writers_model.php:101-105 | after insert a username is held only where it was before, or by the new row when the payload gave it |
| WritersProofs.UpdateUsernames | application/models/writers_model.php:125-136 | after update a username is held only where it was before, or by the updated row when the payload gave it |
| WritersProofs.AddKeepsUsernamesUnique | application/models/writers_model.php:204-211 | when no two settings rows share a username before add, none do after |
| WritersProofs.InsertEmails | application/models/writers_model.php:94-98 | after insert a writer holds an email only as before, or the new user holds the payload's email |
| WritersProofs.UpdateEmails | application/models/writers_model.php:130-133 | after update a writer holds an email only as before, or the updated user holds the payload's email |
| WritersProofs.AddKeepsWriterEmailsUnique | application/models/writers_model.php:221-237 | when no two writer-role users share an email before add, none do after |
| WritersProofs.AddStoresDigest | application/models/writers_model.php:101-102 | after an add with a password, the stored password is its digest under the salt stored beside it, fresh on insert and unchanged on update; for a hash that never returns its input, the plaintext is not stored |
| WritersProofs.GetRowShows | application/models/writers_model.php:280-291 | get_row of a stored user shows its columns, its provider list and every settings column but the salt |
| WritersProofs.InsertThenGetRow | application/models/writers_model.php:86-108 | get_row of the id a successful insert returns gives back the payload's columns, providers and settings, with the password as a digest and no salt |
| WritersProofs.UpdateThenGetRow | application/models/writers_model.php:117-139 | the same round trip for update |
| WritersProofs.AddThenGetRow | application/models/writers_model.php:38-52 | the same round trip for add |
| WritersProofs.InsertLinksAppends | application/models/writers_model.php:434-441 | the rows inserted for a list are the list's rows appended in order |
| WritersProofs.DeleteLinksOfIdempotent | application/models/writers_model.php:431-432 | deleting a writer's rows twice is the same as once |
| WritersProofs.SaveProvidersTwice | application/models/writers_model.php:426-442 | saving the same provider list twice leaves the same rows as saving it once |
| WritersProofs.UpdateLinks | application/models/writers_model.php:135-135 | the association rows after update are the old rows of other writers followed by one row per given provider |
| WritersProofs.UpdatedUserIdempotent | application/models/writers_model.php:130-133 | applying the same update to a user row twice gives the row of applying it once |
| WritersProofs.UpdateIdempotent | application/models/writers_model.php:117-139 | repeating a successful update with the same payload, one that does not set the salt itself, gives the same result and the same store |
| WritersProofs.RevalidateAfterUpdate | application/models/writers_model.php:175-240 | a payload that passed validation passes it again on the store its update produced |
| WritersProofs.AddWithIdIdempotent | application/models/writers_model.php:38-52 | saving the same payload with its id twice gives the same store as saving it once, for a payload whose settings do not set `salt` |
| WritersProofs.InsertWithoutProvidersKeepsUserRow | application/models/writers_model.php:96-104 | a new writer without a providers list is written to ea_users before save_providers throws, and the row stays |
| WritersProofs.DeleteThenGetRow | application/models/writers_model.php:249-260 | after delete get_row reports the record missing, while its settings and association rows remain |
| WritersProofs.SetThenGetSetting | application/models/writers_model.php:493-496 | get_setting reads back the value set_setting wrote, and every other column of the row as it was |
| WritersProofs.SaveThenGetSetting | application/models/writers_model.php:450-469 | after save_settings every given key reads back its value; a column not given reads as before, or NULL on a row the save created |
| WritersProofs.InsertForcesWriterRole | application/models/writers_model.php:94-96 | get_value on the inserted user reads back the writer role id whatever role the payload named, and each payload column as given |
| WritersProofs.BatchAgreesWithGetRow | application/models/writers_model.php:340-366 | each record get_batch lists is get_row's record for that id, with the salt left in |
| WritersProofs.InsertJoinsBatch | application/models/writers_model.php:94-96 | the writer insert creates is listed by get_batch, and every writer listed before still is |
| WritersProofs.ReattachByEmailIsDead | application/models/writers_model.php:41-43 | when no id is given and validation passed, exists answers false and find_record_id throws, so the re-attach branch never runs |

## Left out

- `get_available_writers` is not modelled: it is deprecated and reads `ea_services_writers`, a table outside this model.
- `get_batch`'s `$where_clause` is not modelled. It is raw SQL passed straight through; only the call without one is modelled.
- Views, language loading, `dest_url`, `setUserData`, the model loading in the controller actions, and the migration run inside `update()` are not modelled. None of them decides anything the gate does.
- `assets/js/backend_users_writers.js` is not part of this model: it is user-interface code.
- `configuration.php` is not part of this model: it holds only deployment constants.
- The definitions of `hash_password`, `generate_salt`, the email filter, and the constants are not modelled. They are opaque fields of `Env` or parameters.
- WritersModel.CreateAndWriteSettings: the table definitions are not part of the code. The model assumes no column has a DEFAULT, `ea_writers_providers` has no key, and no foreign key cascades. So a settings row the save creates starts empty, and a new user row from `WritersModel.Insert` holds exactly the payload's columns. `WritersProofs.SaveThenGetSetting` reads NULL for a column that was not given. A column DEFAULT would make that read return the default. A key on the association table would make duplicate provider ids fail to insert.
- Failing SQL statements ("Could not insert/update") are not modelled: the database is assumed to accept every write.
- Transactions and concurrency are not modelled. The code has no transactions, so the model keeps partial writes, and there is no interleaving in a sequential model.
- Which row the database returns when several rows match a `row()` lookup is not modelled. For roles, the model takes the first in table order. For `find_record_id`, it takes some writer with the email.
- MySQL's collation rules are not modelled: a set slug and the other query values compare exactly, not case- or trailing-space-insensitively.
- PHP's loose `==` between strings (numeric strings comparing as numbers) is not modelled, in slug and column comparisons alike. Strings compare exactly.
- WritersModel.Validate: `strlen` counts bytes; the model counts the characters of the string.
- WritersModel.Add: ids in a payload are integers. A non-numeric `id` in a payload is not modelled. When validation passes and a password comes with an id, add requires that user's settings row to exist, for the reason given for update; a payload validation rejects needs nothing.
- WritersModel.Update: requires the user's settings row to exist when a password is given, because the code reads the salt from it without a check.
- WritersModel.SetSetting: requires the row to exist and the column not to be `id_users`. The code assumes the row exists, and the model keeps the `id_users` key out of the row's columns.
- WritersModel.GetValue: the `is_string($field_name)` check is not modelled, since the field name is a string by type.
- WritersProofs.AddStoresDigest: covers only payloads that do not set the `salt` column themselves. An update whose settings also carry a `salt` stores the digest under the old salt next to the new salt.
- WritersProofs.UpdateIdempotent: covers only payloads without a `salt` key, for the same reason: repeating such an update would hash under the new salt.
- WritersProofs.AddWithIdIdempotent: covers only payloads whose settings carry no `salt`. For a payload that sets `salt` the source is not idempotent: the second pass hashes the password under the salt the first pass stored.
- WritersModel.Record: the provider list is read in table order. The association query in get_row has no ORDER BY, so that order is an assumption about the database, and the round trips through get_row rely on it.
- WritersModel.Delete: a numeric id is an integer. PHP's `is_numeric` also accepts strings such as "5.5" or "1e3", which the model does not represent.
- WritersModel.GetRow: the same integer restriction on numeric ids as for delete.
- WritersModel.GetBatch: the result is a map keyed by id. The table order of `result_array()` is not kept.
- WritersModel.UpdatedUser: a column set to NULL in the payload is not modelled; payload columns are strings. In the source, `"notes": null` runs `SET notes = NULL`, and `"id_roles": null` clears the role; the model cannot express either.
- WritersModel.SaveSettings: the settings argument is always an array (a map) here, so the `!is_array` throw cannot arise. A scalar `settings` value in a payload, which PHP would mangle through string-offset writes in insert and update before that throw, is not modelled.

=== FILE: backend.dfy ===
/** The privilege gate of the backend controller (application/controllers/backend.php):
    whether the session may see a page, and which redirect it signals when not.
    The redirect is the `Location` header the controller sends; here it is a
    value returned beside the boolean. */
module Backend {
  import opened Wrappers
  import opened Store
  import opened WritersModel

  /** The two session keys the gate reads; `None` is the FALSE that
      `userdata()` returns for an unset key. */
  datatype Session = Session(userId: Option<int>, roleSlug: Option<string>)

  datatype Redirect = ToLogin | ToNoPrivileges

  /** hasPrivileges' answer and the redirect it sent, if any. */
  datatype Gate = Gate(granted: bool, redirect: Option<Redirect>)

  /** `$user_id == FALSE` is false: an unset id and the id 0 both count as
      not logged in. */
  predicate LoggedIn(s: Session) {
    s.userId.Some? && s.userId.value != 0
  }

  /** `$role_priv[$page]`: the page column of the first ea_roles row the query
      matches, or NULL when no row matches or the row has no such column. */
  function PageLevel(env: Env, roles: seq<Role>, slug: Option<string>, page: string): (l: Option<int>)
    ensures forall i :: 0 <= i < |roles| && SlugMatches(env, slug, roles[i].slug) &&
                        (forall j :: 0 <= j < i ==> !SlugMatches(env, slug, roles[j].slug)) ==>
              l == (if page in roles[i].levels then Some(roles[i].levels[page]) else None)
    ensures (forall i :: 0 <= i < |roles| ==> !SlugMatches(env, slug, roles[i].slug)) ==> l.None?
  {
    var k := FirstRole(env, roles, slug);
    if k < |roles| && page in roles[k].levels then Some(roles[k].levels[page]) else None
  }

  /** `$level < PRIV_VIEW` under PHP's loose comparison. NULL against an integer
      compares as booleans, so a missing level is below every non-zero threshold. */
  predicate BelowView(env: Env, level: Option<int>) {
    match level
    case None => env.privView != 0
    case Some(l) => l < env.privView
  }

  /** hasPrivileges($page, $redirect): not logged in means false (and the login
      redirect); a page level below PRIV_VIEW means false (and the
      no-privileges redirect); otherwise true with no redirect. */
  function HasPrivileges(env: Env, roles: seq<Role>, session: Session, page: string, redirect: bool): (g: Gate)
    ensures !LoggedIn(session) ==> g == Gate(false, if redirect then Some(ToLogin) else None)
    ensures LoggedIn(session) ==> (g.granted <==> !BelowView(env, PageLevel(env, roles, session.roleSlug, page)))
    ensures LoggedIn(session) && !g.granted ==> g.redirect == (if redirect then Some(ToNoPrivileges) else None)
    ensures g.granted ==> g.redirect.None?
    ensures !redirect ==> g.redirect.None?
    ensures env.privView > 0 && (forall i :: 0 <= i < |roles| ==> !SlugMatches(env, session.roleSlug, roles[i].slug)) ==>
              !g.granted
  {
    if !LoggedIn(session) then
      Gate(false, if redirect then Some(ToLogin) else None)
    else if BelowView(env, PageLevel(env, roles, session.roleSlug, page)) then
      Gate(false, if redirect then Some(ToNoPrivileges) else None)
    else Gate(true, None)
  }

  /** The gate of settings(): system-settings privilege, asked without a redirect,
      or else user-settings privilege, asked with one. */
  function SettingsPage(env: Env, roles: seq<Role>, session: Session): (g: Gate)
    ensures g.granted <==>
              && LoggedIn(session)
              && (|| !BelowView(env, PageLevel(env, roles, session.roleSlug, env.systemSettingsPage))
                  || !BelowView(env, PageLevel(env, roles, session.roleSlug, env.userSettingsPage)))
    ensures g.granted ==> g.redirect.None?
    ensures !g.granted ==> g.redirect == Some(if LoggedIn(session) then ToNoPrivileges else ToLogin)
  {
    var system := HasPrivileges(env, roles, session, env.systemSettingsPage, false);
    if system.granted then system
    else HasPrivileges(env, roles, session, env.userSettingsPage, true)
  }

  /** What update() answers: it runs the migration, or reports the exception it
      throws when the system-settings check fails. */
  datatype UpdateReply = RunMigration | PrivilegesException

  datatype UpdateOutcome = UpdateOutcome(reply: UpdateReply, redirect: Option<Redirect>)

  /** The gate of update(), asked with the redirect on. */
  function UpdateAction(env: Env, roles: seq<Role>, session: Session): (u: UpdateOutcome)
    ensures u.reply == RunMigration <==>
              LoggedIn(session) && !BelowView(env, PageLevel(env, roles, session.roleSlug, env.systemSettingsPage))
    ensures u.reply == RunMigration ==> u.redirect.None?
    ensures u.reply == PrivilegesException ==>
              u.redirect == Some(if LoggedIn(session) then ToNoPrivileges else ToLogin)
  {
    var gate := HasPrivileges(env, roles, session, env.systemSettingsPage, true);
    if !gate.granted then UpdateOutcome(PrivilegesException, gate.redirect)
    else UpdateOutcome(RunMigration, None)
  }

  /** What index() produces, as far as the gate and `writer_providers` go. A
      writer session whose user row is gone makes get_row throw. */
  datatype IndexPage =
    | IndexDenied(redirect: Option<Redirect>)
    | IndexFailed(error: Error)
    | IndexShown(writerProviders: seq<int>)

  /** index(): the appointments gate, then the provider list of a writer session
      (empty for every other role). */
  function Index(env: Env, db: Db, session: Session): (v: IndexPage)
    ensures v.IndexDenied? <==>
              !LoggedIn(session) || BelowView(env, PageLevel(env, db.roles, session.roleSlug, env.appointmentsPage))
    ensures v.IndexDenied? ==> v.redirect == Some(if LoggedIn(session) then ToNoPrivileges else ToLogin)
    ensures v.IndexShown? && session.roleSlug == Some(env.writerSlug) ==>
              && session.userId.Some? && session.userId.value in db.users
              && v.writerProviders == ProvidersOf(db.links, session.userId.value)
    ensures v.IndexShown? && session.roleSlug != Some(env.writerSlug) ==> v.writerProviders == []
    ensures v.IndexFailed? <==>
              && !v.IndexDenied? && session.roleSlug == Some(env.writerSlug)
              && session.userId.Some? && session.userId.value !in db.users
  {
    var gate := HasPrivileges(env, db.roles, session, env.appointmentsPage, true);
    if !gate.granted then IndexDenied(gate.redirect)
    else if session.roleSlug == Some(env.writerSlug) then
      match GetRow(db, Numeric(session.userId.value))
      case Success(w) => IndexShown(w.providers)
      case Failure(err) => IndexFailed(err)
    else IndexShown([])
  }

  /** The boolean hasPrivileges returns does not depend on the redirect flag. */
  lemma GrantIgnoresRedirectFlag(env: Env, roles: seq<Role>, session: Session, page: string)
    ensures HasPrivileges(env, roles, session, page, true).granted ==
            HasPrivileges(env, roles, session, page, false).granted
  {
  }

  /** Raising a role's level for a page never takes the page away from a
      session of that role: the gate compares levels, not identities. */
  lemma RaisingLevelKeepsGrant(env: Env, roles: seq<Role>, session: Session, page: string, k: nat, level: int)
    requires k < |roles| && page in roles[k].levels && roles[k].levels[page] <= level
    requires HasPrivileges(env, roles, session, page, true).granted
    ensures HasPrivileges(env, roles[k := roles[k].(levels := roles[k].levels[page := level])], session, page, true).granted
  {
    var roles' := roles[k := roles[k].(levels := roles[k].levels[page := level])];
    assert forall i :: 0 <= i < |roles| ==> roles'[i].slug == roles[i].slug;
    FirstRoleSameSlugs(env, roles, roles', session.roleSlug);
  }

  lemma {:induction false} FirstRoleSameSlugs(env: Env, a: seq<Role>, b: seq<Role>, slug: Option<string>)
    requires |a| == |b|
    requires forall i :: 0 <= i < |a| ==> a[i].slug == b[i].slug
    ensures FirstRole(env, a, slug) == FirstRole(env, b, slug)
    decreases |a|
  {
    if |a| > 0 {
      FirstRoleSameSlugs(env, a[1..], b[1..], slug);
    }
  }

  /** A logged-in session without a role slug is judged by the first role row
      whose slug the database equates with 0, not refused outright. */
  lemma UnsetSlugUsesFirstZeroRole(env: Env, roles: seq<Role>, session: Session, page: string, k: nat)
    requires LoggedIn(session) && session.roleSlug.None?
    requires k < |roles| && env.equalsZero(roles[k].slug)
    requires forall j :: 0 <= j < k ==> !env.equalsZero(roles[j].slug)
    ensures HasPrivileges(env, roles, session, page, true).granted <==>
            !BelowView(env, if page in roles[k].levels then Some(roles[k].levels[page]) else None)
  {
  }
}

=== FILE: store.dfy ===
/** The relational store the writer manager and the privilege gate read: the
    tables ea_users, ea_roles, ea_user_settings and ea_writers_providers, plus the
    deployment constants and hashing primitives the code uses without defining. */
module Store {
  import opened Wrappers

  /** A cell as the database hands it back. SQL NULL is modelled by the column
      being absent from the row's map. */
  type Value = string

  /** The columns of an ea_users row other than its key `id` and its role link
      `id_roles`, which `User` keeps apart. The payload keys `providers` and
      `settings` are never ea_users columns: insert and update unset both before
      writing the row. */
  type Columns = m: map<string, Value> | "id" !in m && "id_roles" !in m && "providers" !in m && "settings" !in m
    witness map[]

  /** The columns of an ea_user_settings row other than its key `id_users`
      (username, password, salt, notifications, ...). */
  type SettingsRow = m: map<string, Value> | "id_users" !in m witness map[]

  /** An ea_users row (its `id` is the key of `Db.users`). */
  datatype User = User(roleId: int, columns: Columns)

  /** An ea_roles row: `levels` holds the integer privilege column of each page
      ("appointments", "customers", "system_settings", ...). */
  datatype Role = Role(id: int, slug: string, levels: map<string, int>)

  /** An ea_writers_providers row. The table's definition is not part of the
      code; it is assumed to have no key, so equal rows may repeat. */
  datatype Link = Link(writer: int, provider: int)

  /** The four tables. `users` and `settings` are keyed by their primary key
      (`id`, `id_users`); `roles` and `links` are kept in table order, because the
      code reads "the first row" of a role query and one row per association.
      `nextId` is the auto-increment counter of ea_users. */
  datatype Db = Db(
    users: map<int, User>,
    roles: seq<Role>,
    settings: map<int, SettingsRow>,
    links: seq<Link>,
    nextId: int)

  /** The store invariant: the auto-increment counter is positive, and every
      user id and settings key is a positive id it has already handed out. */
  predicate Wf(db: Db) {
    && 0 < db.nextId
    && (forall id :: id in db.users ==> 0 < id < db.nextId)
    && (forall id :: id in db.settings ==> 0 < id < db.nextId)
  }

  /** What the code consumes without defining it: the constants of
      application/config/constants.php, PHP's FILTER_VALIDATE_EMAIL filter, the
      general helper's hash_password(salt, password), and how the database
      compares a role slug with the integer 0 (its string-to-number conversion). */
  datatype Env = Env(
    writerSlug: string,          // DB_SLUG_WRITER
    minPasswordLength: int,      // MIN_PASSWORD_LENGTH
    privView: int,               // PRIV_VIEW
    appointmentsPage: string,    // PRIV_APPOINTMENTS
    systemSettingsPage: string,  // PRIV_SYSTEM_SETTINGS
    userSettingsPage: string,    // PRIV_USER_SETTINGS
    isEmail: string -> bool,
    hash: (string, string) -> string,
    equalsZero: string -> bool)  // the database's `slug = 0` on a role slug

  /** Whether the ea_roles row with slug `rs` answers the query
      `get_where('ea_roles', array('slug' => $role_slug))`. A set slug matches
      itself. An unset slug is FALSE, which the query builder escapes as `0`, so
      the row matches when the database equates its slug with 0. */
  predicate SlugMatches(env: Env, slug: Option<string>, rs: string) {
    match slug
    case Some(s) => rs == s
    case None => env.equalsZero(rs)
  }

  /** The position of the first role row a slug query matches, or `|roles|` when
      none does: the row `row()` or `row_array()` hands back, both to the gate and
      to get_writer_role_id. */
  function FirstRole(env: Env, roles: seq<Role>, slug: Option<string>): (k: nat)
    ensures k <= |roles|
    ensures k < |roles| ==> SlugMatches(env, slug, roles[k].slug)
    ensures forall j :: 0 <= j < k ==> !SlugMatches(env, slug, roles[j].slug)
  {
    if |roles| == 0 then 0
    else if SlugMatches(env, slug, roles[0].slug) then 0
    else 1 + FirstRole(env, roles[1..], slug)
  }

  /** The inner join `ea_roles.id = ea_users.id_roles` restricted to the writer slug. */
  predicate HasWriterRole(env: Env, db: Db, u: User) {
    exists i :: 0 <= i < |db.roles| && db.roles[i].id == u.roleId && db.roles[i].slug == env.writerSlug
  }

  /** get_writer_role_id: the id of the first writer-slug role; with no such role
      `row()` is NULL and `intval(NULL->id)` yields 0. */
  function WriterRoleId(env: Env, db: Db): (r: int)
    ensures (exists i :: 0 <= i < |db.roles| && db.roles[i].slug == env.writerSlug) ==>
              exists i :: 0 <= i < |db.roles| && db.roles[i].slug == env.writerSlug && db.roles[i].id == r
    ensures (forall i :: 0 <= i < |db.roles| ==> db.roles[i].slug != env.writerSlug) ==> r == 0
    ensures forall i :: 0 <= i < |db.roles| && db.roles[i].slug == env.writerSlug &&
                        (forall j :: 0 <= j < i ==> db.roles[j].slug != env.writerSlug) ==>
              r == db.roles[i].id
  {
    var k := FirstRole(env, db.roles, Some(env.writerSlug));
    if k < |db.roles| then db.roles[k].id else 0
  }
}

=== FILE: wrappers.dfy ===
/** Option and Result, the two failure-carrying shapes the model uses in place of
    PHP's NULL returns and thrown exceptions. */
module Wrappers {

  datatype Option<+T> = None | Some(value: T) {

    /** The wrapped value, or `default` when there is none. */
    function GetOr(default: T): T {
      match this
      case Some(v) => v
      case None => default
    }
  }

  datatype Result<+R, +E> = Success(value: R) | Failure(error: E)
}

=== FILE: writers_model.dfy ===
/** The writer record manager (application/models/writers_model.php): validation,
    upsert by id, and the two dependent relations (provider associations and the
    one settings row) kept in step with the ea_users row.

    Every operation is a function from the store before to a `Result` and the
    store after. The source runs no transaction, so an exception raised after a
    write keeps that write: `Effect.after` is then the partly written store. */
module WritersModel {
  import opened Wrappers
  import opened Store

  /** One constructor per exception the model can throw. */
  datatype Error =
    | IdNotFound(id: int)            // validate: the given id matches no user
    | ProvidersNotArray              // validate: `providers` is set but not an array
    | RequiredFieldsMissing          // validate: last_name, email or phone_number unset
    | InvalidEmail(email: Value)     // validate: the email filter rejects the address
    | UsernameTaken                  // validate: another settings row has the username
    | PasswordTooShort               // validate: password shorter than the minimum
    | EmailTaken                     // validate: another writer has the email
    | EmailNotProvided               // exists / find_record_id: no email
    | RecordIdNotFound               // find_record_id: no writer has the email
    | NonNumericId                   // delete, get_row, get_value, save_settings
    | RecordNotFound                 // get_row, get_value: no user has the id
    | FieldNotFound(name: string)    // get_value: the column is not set
    | InvalidProviders               // save_providers: argument is not an array
    | InvalidSettings                // save_settings: empty or not an array

  /** A record id argument as the public methods receive it: `is_numeric` accepts
      `Numeric` and rejects `NonNumeric`. */
  datatype IdArg = Numeric(n: int) | NonNumeric(text: string)

  /** A single value read back from a row: the integer key columns or a text cell. */
  datatype Cell = IntCell(i: int) | TextCell(s: Value)

  /** The `providers` key of a payload: an array of provider ids or some scalar. */
  datatype ProvidersField = ProviderIds(ids: seq<int>) | NotAnArray(raw: Value)

  /** The writer array `add` receives. `id` and `id_roles` are the key columns;
      `fields` holds the other ea_users columns (first_name, last_name, email,
      phone_number, ...); `None` stands for an unset (or NULL) key. */
  datatype Payload = Payload(
    id: Option<int>,
    roleId: Option<int>,
    fields: Columns,
    providers: Option<ProvidersField>,
    settings: Option<SettingsRow>)

  /** The outcome of an operation on the store. */
  datatype Effect<T> = Effect(result: Result<T, Error>, after: Db)

  /** The denormalised writer `get_row` and `get_batch` return. */
  datatype WriterRecord = WriterRecord(
    id: int,
    roleId: int,
    columns: Columns,
    providers: seq<int>,
    settings: map<string, Value>)

  // ---------------------------------------------------------------------------
  // Provider associations (ea_writers_providers)

  /** The `id_users_provider` column of every association row of writer `w`,
      in table order: the list `get_row` builds. */
  function ProvidersOf(links: seq<Link>, w: int): (ps: seq<int>)
    ensures |ps| <= |links|
  {
    if |links| == 0 then []
    else (if links[0].writer == w then [links[0].provider] else []) + ProvidersOf(links[1..], w)
  }

  /** The list holds a provider id exactly when some association row links the
      writer to it. */
  lemma {:induction false} ProvidersOfMembers(links: seq<Link>, w: int)
    ensures forall x :: x in ProvidersOf(links, w) <==> Link(w, x) in links
    decreases |links|
  {
    if |links| > 0 {
      ProvidersOfMembers(links[1..], w);
      assert links == [links[0]] + links[1..];
    }
  }

  lemma {:induction false} ProvidersOfConcat(a: seq<Link>, b: seq<Link>, w: int)
    ensures ProvidersOf(a + b, w) == ProvidersOf(a, w) + ProvidersOf(b, w)
    decreases |a|
  {
    if |a| == 0 {
      assert a + b == b;
    } else {
      var head := if a[0].writer == w then [a[0].provider] else [];
      assert (a + b)[0] == a[0];
      assert (a + b)[1..] == a[1..] + b;
      assert ProvidersOf(a + b, w) == head + ProvidersOf(a[1..] + b, w);
      ProvidersOfConcat(a[1..], b, w);
      assert ProvidersOf(a, w) == head + ProvidersOf(a[1..], w);
    }
  }

  /** `DELETE FROM ea_writers_providers WHERE id_users_writer = w`. */
  function DeleteLinksOf(links: seq<Link>, w: int): (r: seq<Link>)
    ensures forall l :: l in r <==> l in links && l.writer != w
    ensures ProvidersOf(r, w) == []
    ensures forall v :: v != w ==> ProvidersOf(r, v) == ProvidersOf(links, v)
  {
    if |links| == 0 then []
    else if links[0].writer == w then DeleteLinksOf(links[1..], w)
    else
      var rest := DeleteLinksOf(links[1..], w);
      assert ([links[0]] + rest)[1..] == rest;
      [links[0]] + rest
  }

  /** One `INSERT` of `(w, p)` per element `p` of `ps`, in order. */
  function InsertLinks(links: seq<Link>, w: int, ps: seq<int>): (r: seq<Link>)
    ensures |r| == |links| + |ps|
    ensures r[..|links|] == links
    ensures ProvidersOf(r, w) == ProvidersOf(links, w) + ps
    ensures forall v :: v != w ==> ProvidersOf(r, v) == ProvidersOf(links, v)
    decreases |ps|
  {
    if |ps| == 0 then links
    else
      var next := links + [Link(w, ps[0])];
      ProvidersOfAppend(links, Link(w, ps[0]));
      assert [ps[0]] + ps[1..] == ps;
      InsertLinks(next, w, ps[1..])
  }

  lemma ProvidersOfAppend(links: seq<Link>, l: Link)
    ensures forall v {:trigger ProvidersOf(links + [l], v)} ::
      ProvidersOf(links + [l], v) == ProvidersOf(links, v) + (if l.writer == v then [l.provider] else [])
  {
    forall v ensures ProvidersOf(links + [l], v) == ProvidersOf(links, v) + (if l.writer == v then [l.provider] else []) {
      ProvidersOfConcat(links, [l], v);
      assert ProvidersOf([l], v) == (if l.writer == v then [l.provider] else []) by {
        assert [l][1..] == [];
      }
    }
  }

  /** save_providers: the association rows of `w` are replaced wholesale, by a
      delete of the old rows followed by one insert per list element. */
  function SaveProviders(db: Db, providers: Option<ProvidersField>, w: int): (e: Effect<()>)
    ensures e.result.Failure? <==> !(providers.Some? && providers.value.ProviderIds?)
    ensures e.result.Failure? ==> e == Effect(Failure(InvalidProviders), db)
    ensures e.result.Success? ==> ProvidersOf(e.after.links, w) == providers.value.ids
    ensures forall v :: v != w ==> ProvidersOf(e.after.links, v) == ProvidersOf(db.links, v)
    ensures e.after == db.(links := e.after.links)
  {
    match providers
    case Some(ProviderIds(ids)) =>
      Effect(Success(()), db.(links := InsertLinks(DeleteLinksOf(db.links, w), w, ids)))
    case _ => Effect(Failure(InvalidProviders), db)
  }

  // ---------------------------------------------------------------------------
  // Settings (ea_user_settings)

  /** The settings row of `id`, or the empty array `row_array()` yields when
      there is none. */
  function RowOrEmpty(db: Db, id: int): SettingsRow {
    if id in db.settings then db.settings[id] else map[]
  }

  /** set_setting: an `UPDATE` of one column of the settings row of `id`; the
      row must already exist. */
  function SetSetting(db: Db, name: string, value: Value, id: int): (r: Db)
    requires id in db.settings
    requires name != "id_users"
    ensures r.settings.Keys == db.settings.Keys
    ensures name in r.settings[id] && r.settings[id][name] == value
    ensures forall c :: c != name ==> (c in r.settings[id] <==> c in db.settings[id])
    ensures forall c :: c != name && c in db.settings[id] ==> r.settings[id][c] == db.settings[id][c]
    ensures forall k :: k in db.settings && k != id ==> r.settings[k] == db.settings[k]
    ensures r == db.(settings := r.settings)
  {
    db.(settings := db.settings[id := db.settings[id][name := value]])
  }

  /** The `foreach ... set_setting(name, value, id)` loop of save_settings, one
      column per key. Whatever order the keys are visited in, the row ends up
      holding every given value and keeps every other column. */
  ghost function WriteSettings(db: Db, id: int, pending: SettingsRow): (r: Db)
    requires id in db.settings
    ensures r == db.(settings := r.settings)
    ensures r.settings.Keys == db.settings.Keys
    ensures forall k :: k in db.settings && k != id ==> r.settings[k] == db.settings[k]
    ensures r.settings[id] == db.settings[id] + pending
    decreases |pending|
  {
    if |pending| == 0 then
      assert pending == map[];
      db
    else
      var name :| name in pending;
      var rest: SettingsRow := pending - {name};
      var db1 := SetSetting(db, name, pending[name], id);
      UnionAfterUpdate(db.settings[id], pending, name);
      WriteSettings(db1, id, rest)
  }

  lemma UnionAfterUpdate(row: map<string, Value>, pending: map<string, Value>, name: string)
    requires name in pending
    ensures row[name := pending[name]] + (pending - {name}) == row + pending
  {
  }

  /** save_settings: rejects a non-numeric id and an empty or absent settings
      array; otherwise creates the row if it is missing and writes each key. */
  ghost function SaveSettings(db: Db, settings: Option<SettingsRow>, id: IdArg): (e: Effect<()>)
    ensures id.NonNumeric? ==> e == Effect(Failure(NonNumericId), db)
    ensures id.Numeric? && (settings.None? || |settings.value| == 0) ==>
              e == Effect(Failure(InvalidSettings), db)
    ensures e.result.Success? <==> id.Numeric? && settings.Some? && |settings.value| > 0
    ensures e.result.Success? ==>
              && e.after.settings.Keys == db.settings.Keys + {id.n}
              && e.after.settings[id.n] == RowOrEmpty(db, id.n) + settings.value
              && forall k :: k in db.settings && k != id.n ==> e.after.settings[k] == db.settings[k]
    ensures e.after == db.(settings := e.after.settings)
  {
    if id.NonNumeric? then Effect(Failure(NonNumericId), db)
    else if settings.None? || |settings.value| == 0 then Effect(Failure(InvalidSettings), db)
    else Effect(Success(()), CreateAndWriteSettings(db, id.n, settings.value))
  }

  /** The successful part of save_settings: an empty row for `id` is inserted when
      none exists, then every key is written into it. */
  ghost function CreateAndWriteSettings(db: Db, id: int, settings: SettingsRow): (r: Db)
    ensures r.settings.Keys == db.settings.Keys + {id}
    ensures r.settings[id] == RowOrEmpty(db, id) + settings
    ensures forall k :: k in db.settings && k != id ==> r.settings[k] == db.settings[k]
    ensures r == db.(settings := r.settings)
  {
    var db1 := if id in db.settings then db else db.(settings := db.settings[id := map[]]);
    assert db1.settings[id] == RowOrEmpty(db, id);
    WriteSettings(db1, id, settings)
  }

  /** get_setting: the named column of the settings row of `id`, or NULL when the
      row or the column is missing. */
  function GetSetting(db: Db, name: string, id: int): (r: Option<Cell>)
    ensures r.Some? ==> id in db.settings
    ensures id in db.settings && name == "id_users" ==> r == Some(IntCell(id))
    ensures id in db.settings && name != "id_users" ==>
              (r.Some? <==> name in db.settings[id]) &&
              (r.Some? ==> r.value == TextCell(db.settings[id][name]))
  {
    if id !in db.settings then None
    else if name == "id_users" then Some(IntCell(id))
    else if name in db.settings[id] then Some(TextCell(db.settings[id][name]))
    else None
  }

  /** validate_username: true iff no settings row of a user other than `userId`
      has this username. `None` is the empty id the code passes when the payload
      has none; `id_users <> ''` then excludes no row, ids being positive. */
  function ValidateUsername(db: Db, username: Value, userId: Option<int>): (ok: bool)
    ensures ok <==> forall k :: UsernameHeldBy(db, username, k) ==> userId == Some(k)
  {
    !exists k | k in db.settings :: UsernameHeldBy(db, username, k) && userId != Some(k)
  }

  predicate UsernameHeldBy(db: Db, username: Value, k: int) {
    k in db.settings && "username" in db.settings[k] && db.settings[k]["username"] == username
  }

  // ---------------------------------------------------------------------------
  // Identity (ea_users joined with ea_roles)

  /** User `id` is a writer-role user whose email column is `email`. */
  predicate WriterWithEmail(env: Env, db: Db, id: int, email: Value) {
    && id in db.users
    && HasWriterRole(env, db, db.users[id])
    && "email" in db.users[id].columns
    && db.users[id].columns["email"] == email
  }

  /** exists: whether a writer-role user has the payload's email. */
  function Exists(env: Env, db: Db, p: Payload): (r: Result<bool, Error>)
    ensures "email" !in p.fields <==> r == Failure(EmailNotProvided)
    ensures r.Success? ==> (r.value <==> exists id :: WriterWithEmail(env, db, id, p.fields["email"]))
  {
    if "email" !in p.fields then Failure(EmailNotProvided)
    else Success(exists id | id in db.users :: WriterWithEmail(env, db, id, p.fields["email"]))
  }

  /** find_record_id: the id of a writer-role user with the payload's email. Which
      row the database returns first when several match is left open. */
  ghost function FindRecordId(env: Env, db: Db, p: Payload): (r: Result<int, Error>)
    ensures "email" !in p.fields <==> r == Failure(EmailNotProvided)
    ensures r.Success? ==> WriterWithEmail(env, db, r.value, p.fields["email"])
    ensures r == Failure(RecordIdNotFound) <==>
              "email" in p.fields && forall id :: !WriterWithEmail(env, db, id, p.fields["email"])
  {
    if "email" !in p.fields then Failure(EmailNotProvided)
    else if exists id :: WriterWithEmail(env, db, id, p.fields["email"]) then
      var id :| WriterWithEmail(env, db, id, p.fields["email"]);
      Success(id)
    else Failure(RecordIdNotFound)
  }

  // ---------------------------------------------------------------------------
  // Validation

  predicate PasswordGiven(p: Payload) {
    p.settings.Some? && "password" in p.settings.value
  }

  predicate UsernameGiven(p: Payload) {
    p.settings.Some? && "username" in p.settings.value
  }

  /** Every rule of validate, as one unordered conjunction. */
  predicate Acceptable(env: Env, db: Db, p: Payload) {
    && (p.id.Some? ==> p.id.value in db.users)
    && !(p.providers.Some? && p.providers.value.NotAnArray?)
    && "last_name" in p.fields && "email" in p.fields && "phone_number" in p.fields
    && env.isEmail(p.fields["email"])
    && (UsernameGiven(p) ==> ValidateUsername(db, p.settings.value["username"], p.id))
    && (PasswordGiven(p) ==> |p.settings.value["password"]| >= env.minPasswordLength)
    && (forall id | id in db.users :: WriterWithEmail(env, db, id, p.fields["email"]) ==> p.id == Some(id))
  }

  /** validate: checks the rules in the source's order and throws on the first
      that fails. */
  function Validate(env: Env, db: Db, p: Payload): (r: Result<(), Error>)
    ensures r.Success? <==> Acceptable(env, db, p)
    ensures (r.Failure? && r.error.IdNotFound?) <==> p.id.Some? && p.id.value !in db.users
    ensures r == Failure(ProvidersNotArray) ==> p.providers.Some? && p.providers.value.NotAnArray?
    ensures r == Failure(RequiredFieldsMissing) ==>
              !("last_name" in p.fields && "email" in p.fields && "phone_number" in p.fields)
    ensures r.Failure? && r.error.InvalidEmail? ==> "email" in p.fields && !env.isEmail(p.fields["email"])
    ensures r == Failure(UsernameTaken) ==>
              UsernameGiven(p) && exists k :: UsernameHeldBy(db, p.settings.value["username"], k) && p.id != Some(k)
    ensures r == Failure(PasswordTooShort) ==>
              PasswordGiven(p) && |p.settings.value["password"]| < env.minPasswordLength
    ensures r == Failure(EmailTaken) ==>
              "email" in p.fields && exists id :: WriterWithEmail(env, db, id, p.fields["email"]) && p.id != Some(id)
  {
    if p.id.Some? && p.id.value !in db.users then Failure(IdNotFound(p.id.value))
    else if p.providers.Some? && p.providers.value.NotAnArray? then Failure(ProvidersNotArray)
    else if !("last_name" in p.fields && "email" in p.fields && "phone_number" in p.fields) then
      Failure(RequiredFieldsMissing)
    else if !env.isEmail(p.fields["email"]) then Failure(InvalidEmail(p.fields["email"]))
    else if UsernameGiven(p) && !ValidateUsername(db, p.settings.value["username"], p.id) then
      Failure(UsernameTaken)
    else if PasswordGiven(p) && |p.settings.value["password"]| < env.minPasswordLength then
      Failure(PasswordTooShort)
    else if exists id | id in db.users :: WriterWithEmail(env, db, id, p.fields["email"]) && p.id != Some(id) then
      Failure(EmailTaken)
    else Success(())
  }

  // ---------------------------------------------------------------------------
  // Insert, update, add

  /** The password a settings array carries; an unset key reads as PHP NULL,
      which string operations see as the empty string. */
  function PlainPassword(settings: Option<SettingsRow>): Value {
    if settings.Some? && "password" in settings.value then settings.value["password"] else ""
  }

  /** The salt column of an existing settings row (NULL reads as ""). */
  function SaltOf(db: Db, id: int): Value
    requires id in db.settings
  {
    if "salt" in db.settings[id] then db.settings[id]["salt"] else ""
  }

  /** The settings array insert hands to save_settings: the given keys, a fresh
      salt, and the password replaced by its digest under that salt. */
  function InsertSettings(env: Env, given: Option<SettingsRow>, salt: Value): (r: SettingsRow)
    ensures "salt" in r && r["salt"] == salt
    ensures "password" in r && r["password"] == env.hash(salt, PlainPassword(given))
    ensures r.Keys == given.GetOr(map[]).Keys + {"salt", "password"}
    ensures forall c :: c in given.GetOr(map[]) && c != "salt" && c != "password" ==>
              r[c] == given.GetOr(map[])[c]
  {
    var base: SettingsRow := given.GetOr(map[]);
    base["salt" := salt]["password" := env.hash(salt, PlainPassword(given))]
  }

  /** The tail insert and update share: save_providers, then save_settings, then
      the record id. Either save may throw after the writes before it. */
  ghost function SaveRelations(db: Db, providers: Option<ProvidersField>, settings: Option<SettingsRow>, id: int)
    : (e: Effect<int>)
    ensures e.result.Success? <==>
              && providers.Some? && providers.value.ProviderIds?
              && settings.Some? && |settings.value| > 0
    ensures e.result.Success? ==> e.result.value == id
    ensures e.result.Failure? ==> e.result.error == InvalidProviders || e.result.error == InvalidSettings
    ensures e.result.Failure? && e.result.error == InvalidProviders ==> e.after == db
    ensures e.result.Failure? ==> e.after.settings == db.settings
    ensures e.after.users == db.users && e.after.roles == db.roles && e.after.nextId == db.nextId
    ensures forall v :: v != id ==> ProvidersOf(e.after.links, v) == ProvidersOf(db.links, v)
    ensures forall k :: k in db.settings && k != id ==> k in e.after.settings && e.after.settings[k] == db.settings[k]
    ensures e.result.Success? ==>
              && ProvidersOf(e.after.links, id) == providers.value.ids
              && e.after.settings.Keys == db.settings.Keys + {id}
              && e.after.settings[id] == RowOrEmpty(db, id) + settings.value
  {
    var sp := SaveProviders(db, providers, id);
    if sp.result.Failure? then Effect(Failure(sp.result.error), sp.after)
    else
      var ss := SaveSettings(sp.after, settings, Numeric(id));
      if ss.result.Failure? then Effect(Failure(ss.result.error), ss.after)
      else Effect(Success(id), ss.after)
  }

  /** insert: a new ea_users row under the next auto-increment id, its role forced
      to the writer role; then the providers and the salted, hashed settings.
      `salt` is the value generate_salt() returned. */
  ghost function Insert(env: Env, db: Db, p: Payload, salt: Value): (e: Effect<int>)
    requires Wf(db)
    ensures db.nextId !in db.users
    ensures e.after.users == db.users[db.nextId := User(WriterRoleId(env, db), p.fields)]
    ensures "providers" !in e.after.users[db.nextId].columns && "settings" !in e.after.users[db.nextId].columns
    ensures e.after.nextId == db.nextId + 1
    ensures e.after.roles == db.roles
    ensures e.result.Success? <==> p.providers.Some? && p.providers.value.ProviderIds?
    ensures e.result.Failure? ==> e.result.error == InvalidProviders && e.after.settings == db.settings
    ensures e.result.Success? ==>
              && e.result.value == db.nextId
              && ProvidersOf(e.after.links, db.nextId) == p.providers.value.ids
              && e.after.settings.Keys == db.settings.Keys + {db.nextId}
              && e.after.settings[db.nextId] == RowOrEmpty(db, db.nextId) + InsertSettings(env, p.settings, salt)
              && e.after.settings[db.nextId]["salt"] == salt
              && e.after.settings[db.nextId]["password"] == env.hash(salt, PlainPassword(p.settings))
    ensures forall k :: k in db.settings ==> k in e.after.settings && e.after.settings[k] == db.settings[k]
    ensures forall v :: v != db.nextId ==> ProvidersOf(e.after.links, v) == ProvidersOf(db.links, v)
  {
    var id := db.nextId;
    var db1 := db.(users := db.users[id := User(WriterRoleId(env, db), p.fields)], nextId := id + 1);
    SaveRelations(db1, p.providers, Some(InsertSettings(env, p.settings, salt)), id)
  }

  /** The ea_users row after `UPDATE ... WHERE id = p.id`: the payload's columns
      overwrite, the others stay, and `id_roles` changes only when given. */
  function UpdatedUser(u: User, p: Payload): (r: User)
    ensures r.columns.Keys == u.columns.Keys + p.fields.Keys
    ensures forall c :: c in p.fields ==> r.columns[c] == p.fields[c]
    ensures forall c :: c in u.columns && c !in p.fields ==> r.columns[c] == u.columns[c]
    ensures p.roleId.None? ==> r.roleId == u.roleId
    ensures p.roleId.Some? ==> r.roleId == p.roleId.value
  {
    var cols: Columns := u.columns + p.fields;
    User(p.roleId.GetOr(u.roleId), cols)
  }

  /** The settings array update hands to save_settings: a given password is
      replaced by its digest under the salt already stored for the user. */
  function UpdateSettings(env: Env, db: Db, p: Payload): (r: Option<SettingsRow>)
    requires p.id.Some?
    requires PasswordGiven(p) ==> p.id.value in db.settings
    ensures r.Some? <==> p.settings.Some?
    ensures r.Some? ==> r.value.Keys == p.settings.value.Keys
    ensures PasswordGiven(p) ==>
              r.value["password"] == env.hash(SaltOf(db, p.id.value), p.settings.value["password"])
    ensures r.Some? ==> forall c :: c in r.value && c != "password" ==> r.value[c] == p.settings.value[c]
  {
    if PasswordGiven(p) then
      var s: SettingsRow := p.settings.value["password" := env.hash(SaltOf(db, p.id.value), p.settings.value["password"])];
      Some(s)
    else p.settings
  }

  /** update: rewrites the ea_users row of `p.id` (a missing row is left alone,
      as an UPDATE matching nothing), then the providers and the settings. */
  ghost function Update(env: Env, db: Db, p: Payload): (e: Effect<int>)
    requires p.id.Some?
    requires PasswordGiven(p) ==> p.id.value in db.settings
    ensures e.result.Success? ==> e.result.value == p.id.value
    ensures e.result.Success? <==>
              && p.providers.Some? && p.providers.value.ProviderIds?
              && p.settings.Some? && |p.settings.value| > 0
    ensures e.result.Failure? ==> e.result.error == InvalidProviders || e.result.error == InvalidSettings
    ensures e.result.Failure? ==> e.after.settings == db.settings
    ensures e.after.users.Keys == db.users.Keys && e.after.roles == db.roles && e.after.nextId == db.nextId
    ensures p.id.value in db.users ==> e.after.users[p.id.value] == UpdatedUser(db.users[p.id.value], p)
    ensures p.id.value in db.users ==>
              "providers" !in e.after.users[p.id.value].columns && "settings" !in e.after.users[p.id.value].columns
    ensures forall k :: k in db.users && k != p.id.value ==> e.after.users[k] == db.users[k]
    ensures forall v :: v != p.id.value ==> ProvidersOf(e.after.links, v) == ProvidersOf(db.links, v)
    ensures forall k :: k in db.settings && k != p.id.value ==> k in e.after.settings && e.after.settings[k] == db.settings[k]
    ensures e.result.Success? ==>
              && ProvidersOf(e.after.links, p.id.value) == p.providers.value.ids
              && e.after.settings.Keys == db.settings.Keys + {p.id.value}
              && e.after.settings[p.id.value] == RowOrEmpty(db, p.id.value) + UpdateSettings(env, db, p).value
    ensures e.result.Success? && PasswordGiven(p) ==>
              && e.after.settings[p.id.value]["password"] == env.hash(SaltOf(db, p.id.value), p.settings.value["password"])
              && ("salt" !in p.settings.value ==> SaltOf(e.after, p.id.value) == SaltOf(db, p.id.value))
  {
    var id := p.id.value;
    var db1 := if id in db.users then db.(users := db.users[id := UpdatedUser(db.users[id], p)]) else db;
    SaveRelations(db1, p.providers, UpdateSettings(env, db, p), id)
  }

  /** Lines 41-43 of add: with no id given, an email that already belongs to a
      writer re-attaches the payload to that writer's id. */
  ghost function ResolveId(env: Env, db: Db, p: Payload): (r: Result<Option<int>, Error>)
    ensures "email" !in p.fields ==> r == Failure(EmailNotProvided)
    ensures p.id.Some? && "email" in p.fields ==> r == Success(p.id)
    ensures p.id.None? && "email" in p.fields ==>
              && r.Success?
              && (r.value.Some? <==> exists id :: WriterWithEmail(env, db, id, p.fields["email"]))
    ensures r.Success? && r.value.Some? && p.id.None? ==>
              "email" in p.fields && WriterWithEmail(env, db, r.value.value, p.fields["email"])
  {
    match Exists(env, db, p)
    case Failure(err) => Failure(err)
    case Success(found) =>
      if found && p.id.None? then
        match FindRecordId(env, db, p)
        case Failure(err) => Failure(err)
        case Success(id) => Success(Some(id))
      else Success(p.id)
  }

  /** Validation passing rules out the re-attach branch of add: a payload without
      an id whose email belongs to a writer is rejected by validate first. */
  lemma ValidatedPayloadKeepsItsId(env: Env, db: Db, p: Payload)
    requires Validate(env, db, p).Success?
    ensures ResolveId(env, db, p) == Success(p.id)
  {
    if p.id.None? {
      assert Exists(env, db, p) == Success(false);
    }
  }

  /** add: validate, resolve insert-or-update, then persist. A payload that fails
      validation leaves the store exactly as it was. */
  ghost function Add(env: Env, db: Db, p: Payload, salt: Value): (e: Effect<int>)
    requires Wf(db)
    requires Validate(env, db, p).Success? && PasswordGiven(p) && p.id.Some? ==> p.id.value in db.settings
    ensures Validate(env, db, p).Failure? ==> e == Effect(Failure(Validate(env, db, p).error), db)
    ensures Validate(env, db, p).Success? && p.id.Some? ==> e == Update(env, db, p)
    ensures Validate(env, db, p).Success? && p.id.None? ==> e == Insert(env, db, p, salt)
    ensures e.result.Success? ==>
              && e.result.value in e.after.users
              && ProvidersOf(e.after.links, e.result.value) == p.providers.value.ids
              && (p.id.Some? ==> e.result.value == p.id.value)
              && (p.id.None? ==> e.result.value == db.nextId && db.nextId !in db.users)
  {
    match Validate(env, db, p)
    case Failure(err) => Effect(Failure(err), db)
    case Success(_) =>
      ValidatedPayloadKeepsItsId(env, db, p);
      match ResolveId(env, db, p)
      case Failure(err) => Effect(Failure(err), db)
      case Success(target) =>
        if target.None? then Insert(env, db, p, salt)
        else Update(env, db, p.(id := target))
  }

  // ---------------------------------------------------------------------------
  // Delete and reads

  /** delete: removes the ea_users row only; settings and association rows are
      left as they are. */
  function Delete(db: Db, id: IdArg): (e: Effect<bool>)
    ensures id.NonNumeric? ==> e == Effect(Failure(NonNumericId), db)
    ensures id.Numeric? && id.n !in db.users ==> e == Effect(Success(false), db)
    ensures id.Numeric? && id.n in db.users ==>
              && e.result == Success(true)
              && e.after.users.Keys == db.users.Keys - {id.n}
              && forall k :: k in e.after.users ==> e.after.users[k] == db.users[k]
    ensures e.after == db.(users := e.after.users)
  {
    match id
    case NonNumeric(_) => Effect(Failure(NonNumericId), db)
    case Numeric(n) =>
      if n !in db.users then Effect(Success(false), db)
      else Effect(Success(true), db.(users := db.users - {n}))
  }

  /** The denormalised record of user `id`; `hideSalt` is get_row's extra unset. */
  function Record(db: Db, id: int, hideSalt: bool): (r: WriterRecord)
    requires id in db.users
    ensures r.id == id && r.roleId == db.users[id].roleId && r.columns == db.users[id].columns
    ensures r.providers == ProvidersOf(db.links, id)
    ensures hideSalt ==> "salt" !in r.settings
    ensures forall c :: c in r.settings <==> c in RowOrEmpty(db, id) && !(hideSalt && c == "salt")
    ensures forall c :: c in r.settings ==> r.settings[c] == RowOrEmpty(db, id)[c]
  {
    var row := RowOrEmpty(db, id);
    WriterRecord(id, db.users[id].roleId, db.users[id].columns, ProvidersOf(db.links, id),
                 if hideSalt then row - {"salt"} else row)
  }

  /** get_row: the user's columns, its provider ids and its settings without
      `id_users` and `salt`. Any user id is accepted, whatever its role. */
  function GetRow(db: Db, id: IdArg): (r: Result<WriterRecord, Error>)
    ensures id.NonNumeric? ==> r == Failure(NonNumericId)
    ensures id.Numeric? ==> (r.Success? <==> id.n in db.users)
    ensures id.Numeric? && id.n !in db.users ==> r == Failure(RecordNotFound)
    ensures r.Success? ==> r.value == Record(db, id.n, true) && "salt" !in r.value.settings
  {
    match id
    case NonNumeric(_) => Failure(NonNumericId)
    case Numeric(n) => if n !in db.users then Failure(RecordNotFound) else Success(Record(db, n, true))
  }

  /** get_batch without a where clause: every user whose `id_roles` equals the
      writer role id, each denormalised with its salt still present. */
  function GetBatch(env: Env, db: Db): (r: map<int, WriterRecord>)
    ensures forall id :: id in r <==> id in db.users && db.users[id].roleId == WriterRoleId(env, db)
    ensures forall id :: id in r ==>
              && r[id].id == id && r[id].roleId == db.users[id].roleId && r[id].columns == db.users[id].columns
              && r[id].providers == ProvidersOf(db.links, id) && r[id].settings == RowOrEmpty(db, id)
  {
    map id | id in db.users && db.users[id].roleId == WriterRoleId(env, db) :: Record(db, id, false)
  }

  /** get_value: one column of the ea_users row of `id`. */
  function GetValue(db: Db, field: string, id: IdArg): (r: Result<Cell, Error>)
    ensures id.NonNumeric? ==> r == Failure(NonNumericId)
    ensures id.Numeric? && id.n !in db.users ==> r == Failure(RecordNotFound)
    ensures r.Success? ==> id.Numeric? && id.n in db.users
    ensures r.Success? && field == "id" ==> r.value == IntCell(id.n)
    ensures r.Success? && field == "id_roles" ==> r.value == IntCell(db.users[id.n].roleId)
    ensures id.Numeric? && id.n in db.users && field != "id" && field != "id_roles" ==>
              (r.Success? <==> field in db.users[id.n].columns) &&
              (r.Success? ==> r.value == TextCell(db.users[id.n].columns[field])) &&
              (r.Failure? ==> r.error == FieldNotFound(field))
  {
    match id
    case NonNumeric(_) => Failure(NonNumericId)
    case Numeric(n) =>
      if n !in db.users then Failure(RecordNotFound)
      else if field == "id" then Success(IntCell(n))
      else if field == "id_roles" then Success(IntCell(db.users[n].roleId))
      else if field in db.users[n].columns then Success(TextCell(db.users[n].columns[field]))
      else Failure(FieldNotFound(field))
  }
}

=== FILE: writers_proofs.dfy ===
/** Properties of the writer record manager that relate several operations or
    hold of every store `add` can produce. */
module WritersProofs {
  import opened Wrappers
  import opened Store
  import opened WritersModel

  // ---------------------------------------------------------------------------
  // Store invariants

  /** No two settings rows carry the same username. */
  ghost predicate UniqueUsernames(db: Db) {
    forall a, b, u :: UsernameHeldBy(db, u, a) && UsernameHeldBy(db, u, b) ==> a == b
  }

  /** No two writer-role users share an email. */
  ghost predicate UniqueWriterEmails(env: Env, db: Db) {
    forall a, b, e :: WriterWithEmail(env, db, a, e) && WriterWithEmail(env, db, b, e) ==> a == b
  }

  /** A payload whose provider list and settings array both save: what update
      needs to succeed once validation is behind it. */
  predicate SavesCleanly(p: Payload) {
    p.providers.Some? && p.providers.value.ProviderIds? && p.settings.Some? && |p.settings.value| > 0
  }

  /** The requirement add places on its caller. */
  predicate AddAllowed(env: Env, db: Db, p: Payload) {
    && Wf(db)
    && (Validate(env, db, p).Success? && PasswordGiven(p) && p.id.Some? ==> p.id.value in db.settings)
  }

  /** exists succeeds exactly when find_record_id would, and both refuse a
      payload without an email in the same way. */
  lemma ExistsAgreesWithFindRecordId(env: Env, db: Db, p: Payload)
    ensures Exists(env, db, p) == Success(true) <==> FindRecordId(env, db, p).Success?
    ensures Exists(env, db, p) == Success(false) <==> FindRecordId(env, db, p) == Failure(RecordIdNotFound)
    ensures Exists(env, db, p) == Failure(EmailNotProvided) <==> FindRecordId(env, db, p) == Failure(EmailNotProvided)
  {
  }

  /** Every store add leaves behind, even after a failure part-way, keeps ids
      positive and below the auto-increment counter. */
  lemma AddKeepsWf(env: Env, db: Db, p: Payload, salt: Value)
    requires AddAllowed(env, db, p)
    ensures Wf(Add(env, db, p, salt).after)
  {
    if Validate(env, db, p).Success? {
      if p.id.None? {
        InsertKeepsWf(env, db, p, salt);
      } else {
        UpdateKeepsWf(env, db, p);
      }
    }
  }

  lemma InsertKeepsWf(env: Env, db: Db, p: Payload, salt: Value)
    requires Wf(db)
    ensures Wf(Insert(env, db, p, salt).after)
  {
    var e := Insert(env, db, p, salt);
    assert e.after.users.Keys == db.users.Keys + {db.nextId};
    if e.result.Success? {
      assert e.after.settings.Keys == db.settings.Keys + {db.nextId};
    } else {
      assert e.after.settings == db.settings;
    }
    WfAfterNewRow(db, e.after);
  }

  /** Adding the rows of a user under the counter's id, and advancing the
      counter, keeps the store well formed. */
  lemma WfAfterNewRow(db: Db, after: Db)
    requires Wf(db) && after.nextId == db.nextId + 1
    requires after.users.Keys == db.users.Keys + {db.nextId}
    requires after.settings.Keys <= db.settings.Keys + {db.nextId}
    ensures Wf(after)
  {
  }

  lemma UpdateKeepsWf(env: Env, db: Db, p: Payload)
    requires Wf(db) && p.id.Some? && p.id.value in db.users
    requires PasswordGiven(p) ==> p.id.value in db.settings
    ensures Wf(Update(env, db, p).after)
  {
    var e := Update(env, db, p);
    if e.result.Success? {
      assert e.after.settings.Keys == db.settings.Keys + {p.id.value};
    } else {
      assert e.after.settings == db.settings;
    }
    WfAfterRowWrite(db, e.after, p.id.value);
  }

  /** Rewriting the rows of an existing user keeps the store well formed. */
  lemma WfAfterRowWrite(db: Db, after: Db, id: int)
    requires Wf(db) && id in db.users
    requires after.nextId == db.nextId && after.users.Keys == db.users.Keys
    requires after.settings.Keys <= db.settings.Keys + {id}
    ensures Wf(after)
  {
  }

  /** Who holds a username once one settings row has been (re)written and the
      others kept: the written row holds its own username, every other row what
      it held before. */
  lemma RowWriteUsernames(db: Db, after: Db, id: int, row: SettingsRow)
    requires after.settings.Keys == db.settings.Keys + {id} && after.settings[id] == row
    requires forall k :: k in db.settings && k != id ==> after.settings[k] == db.settings[k]
    ensures forall a, u :: UsernameHeldBy(after, u, a) ==>
              if a == id then "username" in row && u == row["username"] else UsernameHeldBy(db, u, a)
  {
  }

  lemma NewRowIsEmpty(db: Db)
    requires Wf(db)
    ensures RowOrEmpty(db, db.nextId) == map[]
  {
  }

  lemma EmptyUnion(row: SettingsRow)
    ensures map[] + row == row
  {
  }

  /** The settings row a successful insert writes is exactly the array it
      builds: no earlier row exists under the new id to merge with. */
  lemma InsertRow(env: Env, db: Db, p: Payload, salt: Value)
    requires Wf(db)
    ensures var e := Insert(env, db, p, salt);
            e.result.Success? ==> e.after.settings[db.nextId] == InsertSettings(env, p.settings, salt)
  {
    NewRowIsEmpty(db);
    EmptyUnion(InsertSettings(env, p.settings, salt));
  }

  /** The username insert stores is the one the payload gave, if any. */
  lemma InsertSettingsUsername(env: Env, given: Option<SettingsRow>, salt: Value)
    ensures "username" in InsertSettings(env, given, salt) ==>
              given.Some? && "username" in given.value &&
              InsertSettings(env, given, salt)["username"] == given.value["username"]
  {
    assert "username"[0] != "salt"[0] && "username"[0] != "password"[0];
  }

  /** Who holds a username after insert: the new row holds only the payload's
      username, every other row what it held before. */
  lemma InsertUsernames(env: Env, db: Db, p: Payload, salt: Value)
    requires Wf(db)
    ensures var after := Insert(env, db, p, salt).after;
            forall a, u :: UsernameHeldBy(after, u, a) ==>
              UsernameHeldBy(db, u, a) || (a == db.nextId && UsernameGiven(p) && u == p.settings.value["username"])
  {
    var e := Insert(env, db, p, salt);
    var id := db.nextId;
    if e.result.Success? {
      var row := InsertSettings(env, p.settings, salt);
      InsertRow(env, db, p, salt);
      RowWriteUsernames(db, e.after, id, row);
      InsertSettingsUsername(env, p.settings, salt);
    } else {
      assert e.after.settings == db.settings;
    }
  }

  /** Who holds a username after update: the updated row may hold the payload's
      username, every row otherwise what it held before. */
  lemma UpdateUsernames(env: Env, db: Db, p: Payload)
    requires p.id.Some? && (PasswordGiven(p) ==> p.id.value in db.settings)
    ensures var after := Update(env, db, p).after;
            forall a, u :: UsernameHeldBy(after, u, a) ==>
              UsernameHeldBy(db, u, a) || (a == p.id.value && UsernameGiven(p) && u == p.settings.value["username"])
  {
    var e := Update(env, db, p);
    var id := p.id.value;
    if e.result.Success? {
      var row := RowOrEmpty(db, id) + UpdateSettings(env, db, p).value;
      RowWriteUsernames(db, e.after, id, row);
    } else {
      assert e.after.settings == db.settings;
    }
  }

  /** Usernames stay unique when the only new holder is row `id`, and `id` is
      the only row that held the new name before. */
  lemma UniqueUsernamesAfterWrite(db: Db, after: Db, id: int, name: Option<Value>)
    requires UniqueUsernames(db)
    requires forall a, u :: UsernameHeldBy(after, u, a) ==> UsernameHeldBy(db, u, a) || (a == id && name == Some(u))
    requires name.Some? ==> forall k :: UsernameHeldBy(db, name.value, k) ==> k == id
    ensures UniqueUsernames(after)
  {
  }

  function GivenUsername(p: Payload): Option<Value> {
    if UsernameGiven(p) then Some(p.settings.value["username"]) else None
  }

  /** add never gives two settings rows the same username. */
  lemma AddKeepsUsernamesUnique(env: Env, db: Db, p: Payload, salt: Value)
    requires AddAllowed(env, db, p) && UniqueUsernames(db)
    ensures UniqueUsernames(Add(env, db, p, salt).after)
  {
    if Validate(env, db, p).Success? {
      var name := GivenUsername(p);
      if p.id.None? {
        InsertUsernames(env, db, p, salt);
        UniqueUsernamesAfterWrite(db, Insert(env, db, p, salt).after, db.nextId, name);
      } else {
        UpdateUsernames(env, db, p);
        UniqueUsernamesAfterWrite(db, Update(env, db, p).after, p.id.value, name);
      }
    }
  }

  /** Which writer holds an email after insert or update: the written user holds
      the payload's email, every other user what it held before. */
  lemma InsertEmails(env: Env, db: Db, p: Payload, salt: Value)
    requires Wf(db) && "email" in p.fields
    ensures var after := Insert(env, db, p, salt).after;
            forall a, m :: WriterWithEmail(env, after, a, m) ==>
              if a == db.nextId then m == p.fields["email"] else WriterWithEmail(env, db, a, m)
  {
  }

  lemma UpdateEmails(env: Env, db: Db, p: Payload)
    requires p.id.Some? && (PasswordGiven(p) ==> p.id.value in db.settings) && "email" in p.fields
    ensures var after := Update(env, db, p).after;
            forall a, m :: WriterWithEmail(env, after, a, m) ==>
              if a == p.id.value then m == p.fields["email"] else WriterWithEmail(env, db, a, m)
  {
    var e := Update(env, db, p);
    if p.id.value in db.users {
      assert e.after.users[p.id.value] == UpdatedUser(db.users[p.id.value], p);
    }
  }

  /** add never gives two writer-role users the same email. */
  lemma AddKeepsWriterEmailsUnique(env: Env, db: Db, p: Payload, salt: Value)
    requires AddAllowed(env, db, p) && UniqueWriterEmails(env, db)
    ensures UniqueWriterEmails(env, Add(env, db, p, salt).after)
  {
    if Validate(env, db, p).Success? {
      if p.id.None? {
        InsertEmails(env, db, p, salt);
      } else {
        UpdateEmails(env, db, p);
      }
    }
  }

  // ---------------------------------------------------------------------------
  // Passwords

  /** After a successful add carrying a password, the stored password is the
      digest of the plaintext under the salt stored beside it: a fresh salt on
      insert, the unchanged old salt on update. If the hash never returns its
      plaintext, the plaintext itself is not stored. */
  lemma AddStoresDigest(env: Env, db: Db, p: Payload, salt: Value)
    requires AddAllowed(env, db, p)
    requires PasswordGiven(p) && "salt" !in p.settings.value
    requires Validate(env, db, p).Success? && p.providers.Some? && p.providers.value.ProviderIds?
    ensures Add(env, db, p, salt).result.Success?
    ensures var e := Add(env, db, p, salt);
            var id := e.result.value;
            && id in e.after.settings
            && (p.id.None? ==> SaltOf(e.after, id) == salt)
            && (p.id.Some? ==> SaltOf(e.after, id) == SaltOf(db, id))
            && "password" in e.after.settings[id]
            && e.after.settings[id]["password"] == env.hash(SaltOf(e.after, id), p.settings.value["password"])
    ensures (forall s, x :: env.hash(s, x) != x) ==>
              Add(env, db, p, salt).after.settings[Add(env, db, p, salt).result.value]["password"]
                != p.settings.value["password"]
  {
    var e := Add(env, db, p, salt);
    var id := e.result.value;
    if p.id.None? {
      assert e == Insert(env, db, p, salt);
      assert PlainPassword(p.settings) == p.settings.value["password"];
    } else {
      assert e == Update(env, db, p);
    }
  }

  // ---------------------------------------------------------------------------
  // Round trip

  /** What get_row shows of a stored writer: its columns, its provider list, and
      every settings column but the salt. */
  lemma GetRowShows(db: Db, id: int)
    requires id in db.users
    ensures var r := GetRow(db, Numeric(id));
            && r.Success? && r.value.id == id
            && r.value.columns == db.users[id].columns
            && r.value.providers == ProvidersOf(db.links, id)
            && "salt" !in r.value.settings
            && (forall c :: c in RowOrEmpty(db, id) && c != "salt" ==>
                  c in r.value.settings && r.value.settings[c] == RowOrEmpty(db, id)[c])
  {
  }

  /** get_row on the id a successful add returns gives back the payload: its
      columns, exactly its provider list, and its settings with the password
      replaced by a digest and no salt. */
  ghost predicate ShowsPayload(db: Db, id: int, p: Payload)
    requires p.providers.Some? && p.providers.value.ProviderIds?
  {
    var r := GetRow(db, Numeric(id));
    && r.Success?
    && r.value.id == id
    && (forall c :: c in p.fields ==> c in r.value.columns && r.value.columns[c] == p.fields[c])
    && r.value.providers == p.providers.value.ids
    && "salt" !in r.value.settings
    && (forall c :: p.settings.Some? && c in p.settings.value && c != "password" && c != "salt" ==>
          c in r.value.settings && r.value.settings[c] == p.settings.value[c])
    && (PasswordGiven(p) ==> "password" in r.value.settings)
  }

  lemma InsertThenGetRow(env: Env, db: Db, p: Payload, salt: Value)
    requires Wf(db) && p.providers.Some? && p.providers.value.ProviderIds?
    ensures Insert(env, db, p, salt).result == Success(db.nextId)
    ensures ShowsPayload(Insert(env, db, p, salt).after, db.nextId, p)
  {
    var e := Insert(env, db, p, salt);
    var id := db.nextId;
    InsertRow(env, db, p, salt);
    assert e.after.users[id] == User(WriterRoleId(env, db), p.fields);
    GetRowShows(e.after, id);
  }

  lemma UpdateThenGetRow(env: Env, db: Db, p: Payload)
    requires p.id.Some? && p.id.value in db.users && (PasswordGiven(p) ==> p.id.value in db.settings)
    requires SavesCleanly(p)
    ensures Update(env, db, p).result == Success(p.id.value)
    ensures ShowsPayload(Update(env, db, p).after, p.id.value, p)
  {
    var e := Update(env, db, p);
    var id := p.id.value;
    assert e.after.users[id] == UpdatedUser(db.users[id], p);
    GetRowShows(e.after, id);
  }

  lemma AddThenGetRow(env: Env, db: Db, p: Payload, salt: Value)
    requires AddAllowed(env, db, p) && Validate(env, db, p).Success?
    requires p.providers.Some? && p.providers.value.ProviderIds?
    requires p.id.Some? ==> SavesCleanly(p)
    ensures Add(env, db, p, salt).result == Success(if p.id.Some? then p.id.value else db.nextId)
    ensures ShowsPayload(Add(env, db, p, salt).after, Add(env, db, p, salt).result.value, p)
  {
    if p.id.None? {
      InsertThenGetRow(env, db, p, salt);
    } else {
      UpdateThenGetRow(env, db, p);
    }
  }

  // ---------------------------------------------------------------------------
  // Idempotence

  /** `LinkRows(w, ps)`: the rows save_providers inserts for `ps`. */
  function LinkRows(w: int, ps: seq<int>): (r: seq<Link>)
    ensures |r| == |ps|
    ensures forall i :: 0 <= i < |ps| ==> r[i] == Link(w, ps[i])
  {
    if |ps| == 0 then [] else [Link(w, ps[0])] + LinkRows(w, ps[1..])
  }

  lemma {:induction false} InsertLinksAppends(links: seq<Link>, w: int, ps: seq<int>)
    ensures InsertLinks(links, w, ps) == links + LinkRows(w, ps)
    decreases |ps|
  {
    if |ps| > 0 {
      var next := links + [Link(w, ps[0])];
      assert InsertLinks(links, w, ps) == InsertLinks(next, w, ps[1..]);
      InsertLinksAppends(next, w, ps[1..]);
      assert LinkRows(w, ps) == [Link(w, ps[0])] + LinkRows(w, ps[1..]);
      assert next + LinkRows(w, ps[1..]) == links + LinkRows(w, ps);
    }
  }

  lemma {:induction false} DeleteLinksOfConcat(a: seq<Link>, b: seq<Link>, w: int)
    ensures DeleteLinksOf(a + b, w) == DeleteLinksOf(a, w) + DeleteLinksOf(b, w)
    decreases |a|
  {
    if |a| == 0 {
      assert a + b == b;
    } else {
      assert (a + b)[1..] == a[1..] + b;
      DeleteLinksOfConcat(a[1..], b, w);
    }
  }

  lemma {:induction false} DeleteLinksOfIdempotent(links: seq<Link>, w: int)
    ensures DeleteLinksOf(DeleteLinksOf(links, w), w) == DeleteLinksOf(links, w)
    decreases |links|
  {
    if |links| > 0 {
      DeleteLinksOfIdempotent(links[1..], w);
      if links[0].writer != w {
        var rest := DeleteLinksOf(links[1..], w);
        DeleteLinksOfConcat([links[0]], rest, w);
        assert DeleteLinksOf([links[0]], w) == [links[0]] by {
          assert [links[0]][1..] == [];
        }
      }
    }
  }

  lemma {:induction false} DeleteOwnRows(w: int, ps: seq<int>)
    ensures DeleteLinksOf(LinkRows(w, ps), w) == []
    decreases |ps|
  {
    if |ps| > 0 {
      DeleteOwnRows(w, ps[1..]);
      assert LinkRows(w, ps)[1..] == LinkRows(w, ps[1..]);
    }
  }

  /** Saving the same provider list twice leaves the same association rows as
      saving it once. */
  lemma SaveProvidersTwice(links: seq<Link>, w: int, ps: seq<int>)
    ensures var once := InsertLinks(DeleteLinksOf(links, w), w, ps);
            InsertLinks(DeleteLinksOf(once, w), w, ps) == once
  {
    var d := DeleteLinksOf(links, w);
    InsertLinksAppends(d, w, ps);
    DeleteLinksOfConcat(d, LinkRows(w, ps), w);
    DeleteOwnRows(w, ps);
    DeleteLinksOfIdempotent(links, w);
    assert d + [] == d;
  }

  /** The association rows update leaves: its writer's rows replaced by the
      payload's list, in the order save_providers writes them. */
  lemma UpdateLinks(env: Env, db: Db, p: Payload)
    requires p.id.Some? && (PasswordGiven(p) ==> p.id.value in db.settings)
    requires SavesCleanly(p)
    ensures Update(env, db, p).after.links ==
            InsertLinks(DeleteLinksOf(db.links, p.id.value), p.id.value, p.providers.value.ids)
  {
    var id := p.id.value;
    var db1 := if id in db.users then db.(users := db.users[id := UpdatedUser(db.users[id], p)]) else db;
    var sp := SaveProviders(db1, p.providers, id);
    assert sp.after.links == InsertLinks(DeleteLinksOf(db.links, id), id, p.providers.value.ids);
    var ss := SaveSettings(sp.after, UpdateSettings(env, db, p), Numeric(id));
    assert ss.after.links == sp.after.links;
  }

  lemma UpdatedUserIdempotent(u: User, p: Payload)
    ensures UpdatedUser(UpdatedUser(u, p), p) == UpdatedUser(u, p)
  {
    var u1 := UpdatedUser(u, p);
    assert UpdatedUser(u1, p).columns == u1.columns;
  }

  /** An update whose user row already carries the payload leaves the users
      table as it is. */
  lemma UpdateUsersFixed(env: Env, db: Db, p: Payload)
    requires p.id.Some? && (PasswordGiven(p) ==> p.id.value in db.settings)
    requires p.id.value in db.users ==> UpdatedUser(db.users[p.id.value], p) == db.users[p.id.value]
    ensures Update(env, db, p).after.users == db.users
  {
    var after := Update(env, db, p).after;
    assert after.users.Keys == db.users.Keys;
    assert forall k :: k in db.users ==> after.users[k] == db.users[k];
  }

  /** A successful update whose settings row already carries what it writes
      leaves the settings table as it is. */
  lemma UpdateSettingsFixed(env: Env, db: Db, p: Payload)
    requires p.id.Some? && p.id.value in db.settings
    requires SavesCleanly(p)
    requires db.settings[p.id.value] + UpdateSettings(env, db, p).value == db.settings[p.id.value]
    ensures Update(env, db, p).after.settings == db.settings
  {
    var after := Update(env, db, p).after;
    assert after.settings.Keys == db.settings.Keys;
    assert after.settings[p.id.value] == db.settings[p.id.value];
    assert forall k :: k in db.settings ==> after.settings[k] == db.settings[k];
  }

  lemma UpdateUsersTwice(env: Env, db: Db, p: Payload)
    requires p.id.Some? && (PasswordGiven(p) ==> p.id.value in db.settings)
    requires SavesCleanly(p)
    ensures var once := Update(env, db, p).after;
            Update(env, once, p).after.users == once.users
  {
    var once := Update(env, db, p).after;
    var id := p.id.value;
    if id in db.users {
      UpdatedUserIdempotent(db.users[id], p);
    }
    UpdateUsersFixed(env, once, p);
  }

  /** A second update with the same payload hashes the password under the salt
      the first left in place, and so writes the same settings array. */
  lemma UpdateSettingsTwice(env: Env, db: Db, p: Payload)
    requires p.id.Some? && (PasswordGiven(p) ==> p.id.value in db.settings)
    requires p.settings.Some? ==> "salt" !in p.settings.value
    requires SavesCleanly(p)
    ensures var once := Update(env, db, p).after;
            UpdateSettings(env, once, p) == UpdateSettings(env, db, p)
  {
    var once := Update(env, db, p).after;
    if PasswordGiven(p) {
      assert SaltOf(once, p.id.value) == SaltOf(db, p.id.value);
    }
  }

  lemma UnionTwice(row: SettingsRow, u: SettingsRow)
    ensures row + u + u == row + u
  {
  }

  lemma UpdateSettingsRowsTwice(env: Env, db: Db, p: Payload)
    requires p.id.Some? && (PasswordGiven(p) ==> p.id.value in db.settings)
    requires p.settings.Some? ==> "salt" !in p.settings.value
    requires SavesCleanly(p)
    ensures var once := Update(env, db, p).after;
            Update(env, once, p).after.settings == once.settings
  {
    var once := Update(env, db, p).after;
    var id := p.id.value;
    var u := UpdateSettings(env, db, p).value;
    UpdateSettingsTwice(env, db, p);
    UnionTwice(RowOrEmpty(db, id), u);
    UpdateSettingsFixed(env, once, p);
  }

  /** update is idempotent: repeating a successful update with the same payload
      (one that does not itself set the salt column) changes nothing more. */
  lemma UpdateIdempotent(env: Env, db: Db, p: Payload)
    requires p.id.Some? && (PasswordGiven(p) ==> p.id.value in db.settings)
    requires p.settings.Some? ==> "salt" !in p.settings.value
    requires SavesCleanly(p)
    ensures Update(env, Update(env, db, p).after, p) == Update(env, db, p)
  {
    var once := Update(env, db, p).after;
    var id := p.id.value;
    UpdateUsersTwice(env, db, p);
    UpdateSettingsRowsTwice(env, db, p);
    UpdateLinks(env, db, p);
    UpdateLinks(env, once, p);
    SaveProvidersTwice(db.links, id, p.providers.value.ids);
  }

  /** Validation of the same payload passes again on the store a successful
      update of it produced. */
  lemma RevalidateAfterUpdate(env: Env, db: Db, p: Payload)
    requires p.id.Some? && (PasswordGiven(p) ==> p.id.value in db.settings)
    requires Validate(env, db, p).Success?
    ensures Validate(env, Update(env, db, p).after, p).Success?
  {
    var after := Update(env, db, p).after;
    UpdateUsernames(env, db, p);
    UpdateEmails(env, db, p);
    assert after.users.Keys == db.users.Keys;
  }

  /** Saving the same payload with its id twice gives the same store as saving
      it once: no duplicate association rows and no second settings row. */
  lemma AddWithIdIdempotent(env: Env, db: Db, p: Payload, salt: Value)
    requires AddAllowed(env, db, p) && p.id.Some?
    requires p.settings.Some? ==> "salt" !in p.settings.value
    requires Validate(env, db, p).Success? && SavesCleanly(p)
    ensures Add(env, db, p, salt).result == Success(p.id.value)
    ensures AddAllowed(env, Add(env, db, p, salt).after, p)
    ensures Add(env, Add(env, db, p, salt).after, p, salt) == Add(env, db, p, salt)
  {
    var e := Add(env, db, p, salt);
    AddKeepsWf(env, db, p, salt);
    RevalidateAfterUpdate(env, db, p);
    UpdateIdempotent(env, db, p);
  }

  // ---------------------------------------------------------------------------
  // Failure after a write, delete, and the dead re-attach branch

  /** With no transaction, a new writer without a providers array is inserted
      into ea_users before save_providers throws; the row stays. */
  lemma InsertWithoutProvidersKeepsUserRow(env: Env, db: Db, p: Payload, salt: Value)
    requires AddAllowed(env, db, p)
    requires Validate(env, db, p).Success? && p.id.None? && p.providers.None?
    ensures Add(env, db, p, salt).result == Failure(InvalidProviders)
    ensures db.nextId !in db.users && db.nextId in Add(env, db, p, salt).after.users
  {
  }

  /** After a successful delete the record is gone for get_row, while its
      settings row and association rows are left behind. */
  lemma DeleteThenGetRow(db: Db, id: int)
    requires id in db.users
    ensures var after := Delete(db, Numeric(id)).after;
            && GetRow(after, Numeric(id)) == Failure(RecordNotFound)
            && after.settings == db.settings
            && ProvidersOf(after.links, id) == ProvidersOf(db.links, id)
  {
  }

  /** The re-attach-by-email branch of add never runs: when no id is given and
      validation passes, no writer has the email, so exists answers false. */
  lemma ReattachByEmailIsDead(env: Env, db: Db, p: Payload)
    requires p.id.None? && Validate(env, db, p).Success?
    ensures Exists(env, db, p) == Success(false)
    ensures FindRecordId(env, db, p) == Failure(RecordIdNotFound)
  {
    ValidatedPayloadKeepsItsId(env, db, p);
  }

  // ---------------------------------------------------------------------------
  // Settings and column reads after a write

  /** get_setting reads back what set_setting wrote, and every other column as
      it was. */
  lemma SetThenGetSetting(db: Db, name: string, value: Value, id: int)
    requires id in db.settings && name != "id_users"
    ensures GetSetting(SetSetting(db, name, value, id), name, id) == Some(TextCell(value))
    ensures forall other :: other != name ==>
              GetSetting(SetSetting(db, name, value, id), other, id) == GetSetting(db, other, id)
  {
  }

  /** After save_settings each given key reads back its value through
      get_setting; a column not given reads as before, or NULL on a row the save
      created. */
  lemma SaveThenGetSetting(db: Db, settings: SettingsRow, id: int, name: string)
    requires |settings| > 0
    ensures var after := SaveSettings(db, Some(settings), Numeric(id)).after;
            && (name in settings ==> GetSetting(after, name, id) == Some(TextCell(settings[name])))
            && (name !in settings && name != "id_users" ==>
                  GetSetting(after, name, id) == (if id in db.settings then GetSetting(db, name, id) else None))
  {
    var after := SaveSettings(db, Some(settings), Numeric(id)).after;
    assert after.settings[id] == RowOrEmpty(db, id) + settings;
  }

  /** Whatever role the payload names, get_value reads the writer role id back
      from the user insert creates, and the payload's columns as given. */
  lemma InsertForcesWriterRole(env: Env, db: Db, p: Payload, salt: Value, field: string)
    requires Wf(db)
    ensures GetValue(Insert(env, db, p, salt).after, "id_roles", Numeric(db.nextId)) ==
            Success(IntCell(WriterRoleId(env, db)))
    ensures field in p.fields ==>
              GetValue(Insert(env, db, p, salt).after, field, Numeric(db.nextId)) == Success(TextCell(p.fields[field]))
  {
    var after := Insert(env, db, p, salt).after;
    assert after.users[db.nextId] == User(WriterRoleId(env, db), p.fields);
  }

  // ---------------------------------------------------------------------------
  // get_batch

  /** Each record get_batch lists is the record get_row returns for that id,
      except that get_batch leaves the salt in. */
  lemma BatchAgreesWithGetRow(env: Env, db: Db, id: int)
    requires id in GetBatch(env, db)
    ensures GetRow(db, Numeric(id)).Success?
    ensures var b := GetBatch(env, db)[id];
            GetRow(db, Numeric(id)).value == b.(settings := b.settings - {"salt"})
  {
    var b := GetBatch(env, db)[id];
    var g := GetRow(db, Numeric(id)).value;
    assert g.settings == b.settings - {"salt"};
  }

  /** A writer insert creates is listed by get_batch, and every writer listed
      before still is. */
  lemma InsertJoinsBatch(env: Env, db: Db, p: Payload, salt: Value)
    requires Wf(db)
    ensures db.nextId in GetBatch(env, Insert(env, db, p, salt).after)
    ensures forall id :: id in GetBatch(env, db) ==> id in GetBatch(env, Insert(env, db, p, salt).after)
  {
    var after := Insert(env, db, p, salt).after;
    BatchGrows(env, db, after, db.nextId, User(WriterRoleId(env, db), p.fields));
  }

  lemma BatchGrows(env: Env, db: Db, after: Db, id: int, u: User)
    requires after.roles == db.roles && id !in db.users && after.users == db.users[id := u]
    requires u.roleId == WriterRoleId(env, db)
    ensures id in GetBatch(env, after)
    ensures forall k :: k in GetBatch(env, db) ==> k in GetBatch(env, after)
  {
    assert WriterRoleId(env, after) == WriterRoleId(env, db);
  }
}
